=== FILE: README.md ===
# Beam-search decoding engine of single-turn-conversation

A Dafny model of the inference-time decoder of `graph_builder.h`: the global
top-K selection `mostLikeResults` and the search/retire/select loop of
`GraphBuilder::forwardDecoderUsingBeamSearch`.

- `beam_types.dfy` (module `BeamTypes`): `WordIdAndProbability`,
  `BeamSearchResult`, the per-token `Step` score, the reference definition
  `Extend` of the candidate that extends beam `i` by token `j`, and the
  facts about candidates (path extends the parent path by one token, score
  adds the step log-probability to the parent's).
- `priority_queue.dfy` (module `PriorityQueue`): the
  `std::priority_queue` with comparator `a > b`, i.e. a min-queue, as a class
  `MinQueue` whose `items` the methods `Push` and `Pop` update in place.
- `top_k.dfy` (module `TopK`): `MostLikeResults`, the nested enumeration of
  every (beam, token) extension into a queue bounded by K = number of beams,
  followed by the drain. Its contract: it aborts (`SizeMismatch`) exactly
  when the previous results are non-empty and not one per beam; otherwise it
  returns `min(K, number of extensions)` distinct candidates, each a genuine
  extension, in non-decreasing score order, and every extension left out
  scores no higher than any kept one. Which of several equal-score
  candidates is kept is left unspecified.
- `search.dfy` (module `Search`): retirement (`Retire`, specified by the
  filter functions `FinishedOf` / `SurvivorsOf`), the decoder step over all
  beams (`AdvanceBeams`), the final selection, and the loop `BeamSearch`.
  `BeamSearch` returns a ghost trace of its rounds (`Round`, `Trace`): each
  round is a top-K ranking (`TopKOf`) of the decoder's extensions of the
  beams the previous round kept, and the finished list is exactly what the
  rounds retired (`TraceFinished`). It also proves that the size-mismatch abort of `mostLikeResults` is
  never reached, that the loop ends by round 100, that every finished path
  has between 1 and 100 tokens and ends with the stop token unless the
  ceiling cut it, that `|finished| + |beam|` never exceeds the beam width
  and equals it after every round when every decoder step offers at least
  one token (so the abort at lines 243-247 is then unreachable), that every
  finished hypothesis was decoded from one of the seeded beams by tokens its
  decoder offered, scoring the sum of their step log-probabilities
  (`Decoded`, `FromSeed`), and that the selected result is the first most
  likely finished one. With non-positive step log-probabilities, as a
  log-softmax gives, a path never scores more than its prefixes
  (`ScoreNeverRises`, `FinishedScoreBounded`).

Modelling choices:

- Log-probabilities (`dtype`) are unbounded integers: the model only adds
  and compares them. The per-token probability is an opaque `real` that is
  carried along and never computed with.
- The decoder (`forwardDecoderByOneStep` followed by `graph.compute()` and
  the log-softmax of lines 61-66) is a parameter `oracle: (step, beam, path)
  -> seq<Step>`, giving for one beam at one step the step log-probability
  and probability of every vocabulary entry. Beams (`DecoderComponents`)
  are opaque values of a type parameter. The oracle receives the path of
  the survivor that carries the beam forward (empty at step 0), standing in
  for `last_answers` and the history the decoder components accumulate.
- The stop symbol is a token id `stop`; the string lookup `from_id` at line
  208 becomes a comparison of the last token id with it.
- The priority queue keeps its elements in insertion order; `Top` is the
  first minimal one and `Pop` removes exactly that one. No property of
  `MostLikeResults` depends on which of equal minima this is.
- A top-K selection is often described with a bounded max-heap; the code
  uses the comparator `a.final_log_probability > b.final_log_probability`,
  which puts the minimum on top. The model follows the code.
- A search seeded with no beam makes `max_element` return the end of an
  empty range, which the source dereferences; the model returns
  `NoFinishedResult` there.

## Model

| member | source | states |
|---|---|---|
| BeamTypes.Extend | src/single_turn_conversation/encoder_decoder/graph_builder.h:63-74 | the candidate built for beam i and token j originates at beam i and ends with token j, so distinct (beam, token) pairs give distinct candidates |
| BeamTypes.CandidateExtendsParent | src/single_turn_conversation/encoder_decoder/graph_builder.h:67-74 | a candidate's path is its parent beam's path (empty in the first round) plus the chosen token, one token longer, and its score is the step log-probability plus the parent's score |
| BeamTypes.SumDimsCoversRows | src/single_turn_conversation/encoder_decoder/graph_builder.h:59-63 | when every beam offers at least one token there are at least as many extensions as beams |
| PriorityQueue.MinIndex | src/single_turn_conversation/encoder_decoder/graph_builder.h:55-58 | the position chosen as the top of the queue holds a smallest cumulative log-probability |
| PriorityQueue.PopMin | src/single_turn_conversation/encoder_decoder/graph_builder.h:79 | popping leaves one element fewer and removes exactly one copy of the top |
| PriorityQueue.PopMinMembers | src/single_turn_conversation/encoder_decoder/graph_builder.h:79-80 | after a pop, every remaining element was there before, and every element other than the top is still there |
| PriorityQueue.MinQueue.constructor | src/single_turn_conversation/encoder_decoder/graph_builder.h:58 | the queue starts empty |
| PriorityQueue.MinQueue.Top | src/single_turn_conversation/encoder_decoder/graph_builder.h:78 | `top()` is an element of the queue and no element scores lower |
| PriorityQueue.MinQueue.Push | src/single_turn_conversation/encoder_decoder/graph_builder.h:77 | `push` adds the candidate and changes nothing else |
| PriorityQueue.MinQueue.Pop | src/single_turn_conversation/encoder_decoder/graph_builder.h:79 | `pop` removes exactly the element `top()` designates |
| TopK.Consider | src/single_turn_conversation/encoder_decoder/graph_builder.h:76-81 | push while fewer than k are held; otherwise replace the minimum only by a strictly higher score, else leave the queue unchanged |
| TopK.NewCandidate | src/single_turn_conversation/encoder_decoder/graph_builder.h:64-74 | the candidate built for beam i and token j is exactly the reference extension `Extend` |
| TopK.OfferRow | src/single_turn_conversation/encoder_decoder/graph_builder.h:63-83 | offering every token of beam i turns a top-k set of the extensions of beams 0..i-1 into one of beams 0..i |
| TopK.OfferPush | src/single_turn_conversation/encoder_decoder/graph_builder.h:76-77 | pushing into a queue holding fewer than k keeps it a top-k set of everything enumerated, with every extension so far kept |
| TopK.OfferReplace | src/single_turn_conversation/encoder_decoder/graph_builder.h:78-80 | replacing the minimum by a strictly better candidate keeps the queue a top-k set of size k: the evicted minimum scores no higher than anything kept |
| TopK.OfferReject | src/single_turn_conversation/encoder_decoder/graph_builder.h:78 | a candidate not better than the minimum of a full queue scores no higher than anything kept |
| TopK.OfferKeepsSelected | src/single_turn_conversation/encoder_decoder/graph_builder.h:76-81 | considering one more extension keeps the queue a set of min(k, number enumerated) distinct enumerated candidates, each scoring at least as high as every extension left out |
| TopK.SelectedAtEnd | src/single_turn_conversation/encoder_decoder/graph_builder.h:59-83 | after all rows, the queue holds min(k, total extensions) distinct candidates and every extension left out scores no higher than any kept one |
| TopK.DrainStep | src/single_turn_conversation/encoder_decoder/graph_builder.h:87-91 | moving the top into the results keeps them sorted, no higher than what remains, and together with the queue equal to what was kept |
| TopK.Drain | src/single_turn_conversation/encoder_decoder/graph_builder.h:85-91 | draining empties the queue and yields a permutation of its contents in non-decreasing score order |
| TopK.DrainedIsKept | src/single_turn_conversation/encoder_decoder/graph_builder.h:85-93 | a permutation of the kept candidates has the same size, the same members, and no duplicates when they had none |
| TopK.RankedFromKept | src/single_turn_conversation/encoder_decoder/graph_builder.h:83-93 | the drained queue after the last row has min(k, total extensions) entries, k when every row is non-empty, distinct genuine extensions, none scoring below an extension left out |
| TopK.MostLikeResults | src/single_turn_conversation/encoder_decoder/graph_builder.h:43-94 | aborts exactly when previous results exist and are not one per node; otherwise returns min(k, total extensions) (at most k, exactly k when every row is non-empty) distinct genuine extensions, sorted by non-decreasing score, with every extension left out scoring no higher than any returned one |
| Search.PartitionSizes | src/single_turn_conversation/encoder_decoder/graph_builder.h:205-222 | every ranked candidate goes to exactly one of the finished list and the survivors |
| Search.SurvivorsExactly | src/single_turn_conversation/encoder_decoder/graph_builder.h:210-220 | the survivors are exactly the ranked candidates that neither end with the stop token nor are at round 100 or later |
| Search.FinishedExactly | src/single_turn_conversation/encoder_decoder/graph_builder.h:210-215 | the finished entries are exactly the (path, score) pairs of the retiring candidates |
| Search.SurvivorsKeepOrder | src/single_turn_conversation/encoder_decoder/graph_builder.h:216-217 | survivors keep their ranking order: filtering distributes over concatenation |
| Search.NoSurvivorAtCeiling | src/single_turn_conversation/encoder_decoder/graph_builder.h:210 | from round 100 on no candidate survives |
| Search.RetiredShape | src/single_turn_conversation/encoder_decoder/graph_builder.h:210-215 | candidates of round i (1..100) with paths of i tokens retire with 1 to 100 tokens, ending with the stop token unless cut at 100 |
| Search.Retire | src/single_turn_conversation/encoder_decoder/graph_builder.h:201-225 | computes the finished list and the survivors of the ranked candidates, and a beam list of the same size where beam[k] is the old beam survivor k extends |
| Search.AdvanceBeams | src/single_turn_conversation/encoder_decoder/graph_builder.h:232-238 | one decoder step per active beam, fed the survivor's path (nothing at step 0), gives exactly one score row per beam in beam order |
| Search.RankedShape | src/single_turn_conversation/encoder_decoder/graph_builder.h:190-200 | candidates ranked at round i extend paths of i-1 tokens, so they have i tokens and refer to an existing beam |
| Search.ExtendOffered | src/single_turn_conversation/encoder_decoder/graph_builder.h:64-74 | choosing a token the decoder offered at the path's own step extends a decoded path, and adds exactly that token's step log-probability to its score |
| Search.ScoreNeverRises | src/single_turn_conversation/encoder_decoder/graph_builder.h:64-69 | when every step log-probability is non-positive (a log-softmax), a decoded path scores no more than any of its prefixes |
| Search.FinishedScoreBounded | src/single_turn_conversation/encoder_decoder/graph_builder.h:64-69 | under non-positive steps, a hypothesis decoded from a seeded beam scores at most 0 and no more than any of its prefixes |
| Search.RankedDecoded | src/single_turn_conversation/encoder_decoder/graph_builder.h:59-74 | every candidate ranked in a round extends the decoded path of its own beam by a token that beam's decoder offered, so its score is the sum of its step log-probabilities |
| Search.RetiredDecoded | src/single_turn_conversation/encoder_decoder/graph_builder.h:205-222 | retirement keeps every survivor paired with the seeded beam that decoded it, and every finished hypothesis was decoded from a seeded beam |
| Search.SelectAndRetire | src/single_turn_conversation/encoder_decoder/graph_builder.h:200-225 | one round never aborts in `mostLikeResults` and ranks the beams' extensions top-K (`TopKOf`: min(beams, tokens offered) distinct candidates in non-decreasing score order (lowest first), each a genuine extension, and no extension left out scores above one kept); the finished hypotheses and the survivors are exactly the stop-or-cut and the other candidates of that ranking, in rank order, and each next beam is the old beam its survivor extends; so it keeps at most as many candidates as beams (exactly as many when every row is non-empty), none from round 100, with survivors of `round` tokens and finished hypotheses of the right shape, all decoded from seeded beams |
| Search.SearchRound | src/single_turn_conversation/encoder_decoder/graph_builder.h:190-239 | one pass of the loop: ranks and retires as above, appends that round to the trace so the finished list stays exactly what the trace retired, never grows finished plus active beyond its size before, and either empties the beam (and returns no rows) or advances every survivor one decoder step, giving the next pass's rows |
| Search.RunRounds | src/single_turn_conversation/encoder_decoder/graph_builder.h:185-241 | the loop ends by round 100 with a trace of rounds starting from the seeds, each ranking the extensions of the beams the previous round kept, the last keeping none; the finished list is exactly what the rounds retired, of the right shapes, decoded from seeded beams, and no larger than the seed count (equal when every step offers a token) |
| Search.TraceExtends | src/single_turn_conversation/encoder_decoder/graph_builder.h:200-225 | a round ranked from the beams the last traced round kept extends the trace, and the hypotheses the longer trace retired are those of the shorter followed by that round's |
| Search.Conclude | src/single_turn_conversation/encoder_decoder/graph_builder.h:243-255 | aborts exactly when the number of finished hypotheses differs from the beam width; otherwise reports no result when nothing finished and else the first most likely finished hypothesis |
| Search.MaxElementGreater | src/single_turn_conversation/encoder_decoder/graph_builder.h:249-253 | `max_element` with the comparator `a.second > b.second` returns the first finished result of smallest log-probability |
| Search.AsWrittenSelectsLeastLikely | src/single_turn_conversation/encoder_decoder/graph_builder.h:249-253 | on two finished results scored -1 and -2 the selection as written returns the one scored -2, which is not the most likely |
| Search.SelectBest | src/single_turn_conversation/encoder_decoder/graph_builder.h:253-255 | the intended selection returns the first finished result of largest log-probability |
| Search.BeamSearch | src/single_turn_conversation/encoder_decoder/graph_builder.h:177-256 | terminates by round 100; never takes the size-mismatch abort of `mostLikeResults`; returns a trace of the rounds, each a top-K ranking of the decoder's extensions of the beams the round before kept (the seeds at first), the last round keeping none, and the finished list is exactly what those rounds retired, in order; finishes at most as many hypotheses as beams, exactly as many when every step offers a token; each finished path has 1-100 tokens and ends with the stop token unless cut at 100; each finished hypothesis was decoded from one of the seeded beams by tokens its decoder offered, and its score is the sum of their step log-probabilities; aborts with a count mismatch exactly when the counts differ; reports no result exactly when seeded with no beam; otherwise returns the first most likely finished hypothesis |

## Left out

- Search.PathScore, Search.BeamSearch: log-probabilities (`dtype`, a floating-point type) are unbounded integers, so the cumulative score of line 69 is an exact sum in the model where the source rounds at every addition; ties and orderings that rounding would change are not captured.
- The log-softmax of lines 61-66 (`toExp`, `log`, `exp`) and the step probability: floating-point work over an external helper; the step log-probabilities and probabilities are inputs.
- Search.Conclude, Search.BeamSearch: return the selected hypothesis's cumulative log-probability, not `exp` of it (line 255), because exponentiation is floating-point work outside the model.
- Search.Conclude, Search.BeamSearch: use the corrected selection `SelectBest`, not the comparator as written (see Findings).
- `GraphBuilder::init`, `forward`, `forwardDecoder`, `forwardDecoderByOneStep` and `graph.compute()` (lines 102-175, 240): computation-graph construction over the N3LDG library, which is not part of this model; their effect on the search is the oracle.
- The train/inference mode checks at lines 131-134 and 181-184: the model has only the inference entry point, so the flag cannot mismatch.
- `CopyDecoderComponents` (lines 26-29): unfinished, with no behaviour; the file does not compile as written there, nor at line 233, which binds a `DecoderComponents&` to a `shared_ptr`.
- Search.BeamSearch, Search.RunRounds: aliasing of `DecoderComponents` is not modelled; beams are opaque values and each survivor is taken to carry an independent copy of its beam. In the source, `beam.push_back(last_beam.at(...))` (line 219) copies a shared pointer, so when two survivors extend the same beam both advance one shared object: the second `forwardDecoderByOneStep` of lines 233-237 pushes a second lookup and output, yet reads `decoder_lookups.at(i-1)` and `_hiddens.at(i)` (lines 155, 167) left by the first call, and in the next round both read `wordvector_to_onehots.at(i-1)` (line 197), the first survivor's row. `Decoded` and `FromSeed` describe the independent-copy reading only; under the shared-pointer reading the second survivor's candidates are scored as continuations of the first survivor's path.
- The vocabulary lookup `from_id` (line 208) and the `last_answers` strings: replaced by token ids and the survivor's path given to the oracle.
- The heap layout of `std::priority_queue` and its order among equal scores: unspecified; the model fixes one order and proves nothing that depends on it.
- Search.ScoreNeverRises: takes non-positive step log-probabilities as a hypothesis (`NonPositiveSteps`), which the log-softmax of lines 61-66 guarantees but the oracle does not model.
- `default_config.h`: a configuration struct, a print to stdout and a singleton accessor, with no logic.
- Diagnostics written to `std::cerr` before each abort: I/O.

## Findings

| source | as written | input that shows it | evidently intended | confidence | as-written member | corrected member |
|---|---|---|---|---|---|---|
| src/single_turn_conversation/encoder_decoder/graph_builder.h:249-253 | `std::max_element` with comparator `a.second > b.second` returns the first finished result of SMALLEST cumulative log-probability | two finished results scored -1 and -2: the one scored -2 is returned | return the most likely finished result (comparator `a.second < b.second`) | high; not executed | Search.MaxElementGreater | Search.SelectBest |

=== FILE: beam_types.dfy ===
/** Values exchanged by the top-K selector and the beam-search loop of
    graph_builder.h: chosen tokens, per-step scores and candidates. */
module BeamTypes {

  /** Hard ceiling on the number of decoding rounds (the `i >= 100` test). */
  const MaxSteps: nat := 100

  /** A chosen token: its vocabulary id and the step probability reported
      with it. The probability is carried along and never computed with. */
  datatype WordIdAndProbability = WordIdAndProbability(wordId: nat, probability: real)

  /** What the log-softmax of one decoder output yields for one vocabulary
      entry: the step log-probability and the probability reported with it. */
  datatype Step = Step(logProb: int, probability: real)

  /** A ranked extension of one beam by one token: the index of the beam it
      extends, the whole token path, and the cumulative log-probability. */
  datatype BeamSearchResult = BeamSearchResult(
    beamI: nat,
    path: seq<WordIdAndProbability>,
    finalLogProbability: int)

  /** Id of the token a candidate ends with. */
  function LastWord(c: BeamSearchResult): nat
    requires |c.path| > 0
  {
    c.path[|c.path| - 1].wordId
  }

  /** Total number of (beam, token) extensions offered by the rows. */
  function SumDims(rows: seq<seq<Step>>): nat
  {
    if rows == [] then 0 else SumDims(rows[..|rows| - 1]) + |rows[|rows| - 1]|
  }

  function Min(a: nat, b: nat): nat
  {
    if a <= b then a else b
  }

  /** The previous round's results either do not exist yet (first round) or
      come one per beam. */
  predicate Aligned(rows: seq<seq<Step>>, last: seq<BeamSearchResult>)
  {
    last == [] || |last| == |rows|
  }

  /** Path a beam has produced so far: empty in the first round. */
  function ParentPath(last: seq<BeamSearchResult>, i: nat): seq<WordIdAndProbability>
    requires last == [] || i < |last|
  {
    if last == [] then [] else last[i].path
  }

  /** Cumulative log-probability of a beam so far: zero in the first round. */
  function ParentScore(last: seq<BeamSearchResult>, i: nat): int
    requires last == [] || i < |last|
  {
    if last == [] then 0 else last[i].finalLogProbability
  }

  /** The candidate that extends beam `i` by token `j`. It is identified by
      its beam and its last token, so distinct (i, j) give distinct candidates. */
  function Extend(rows: seq<seq<Step>>, last: seq<BeamSearchResult>, i: nat, j: nat): (c: BeamSearchResult)
    requires Aligned(rows, last) && i < |rows| && j < |rows[i]|
    ensures c.beamI == i && |c.path| > 0 && LastWord(c) == j
  {
    BeamSearchResult(
      i,
      ParentPath(last, i) + [WordIdAndProbability(j, rows[i][j].probability)],
      rows[i][j].logProb + ParentScore(last, i))
  }

  /** `c` is one of the extensions the rows offer. */
  predicate IsCandidate(rows: seq<seq<Step>>, last: seq<BeamSearchResult>, c: BeamSearchResult)
  {
    Aligned(rows, last) && c.beamI < |rows| && |c.path| > 0
    && LastWord(c) < |rows[c.beamI]|
    && c == Extend(rows, last, c.beamI, LastWord(c))
  }

  /** Each row offers at least one token. */
  predicate NoEmptyRow(rows: seq<seq<Step>>)
  {
    forall k :: 0 <= k < |rows| ==> |rows[k]| > 0
  }

  /** When every row offers a token there are at least as many extensions
      as beams. */
  lemma {:induction false} SumDimsCoversRows(rows: seq<seq<Step>>)
    requires NoEmptyRow(rows)
    ensures SumDims(rows) >= |rows|
  {
    if rows != [] {
      var init := rows[..|rows| - 1];
      assert NoEmptyRow(init) by {
        forall k | 0 <= k < |init| ensures |init[k]| > 0 {
          assert init[k] == rows[k];
        }
      }
      SumDimsCoversRows(init);
    }
  }

  /** Adding one more row adds its width to the count of extensions. */
  lemma SumDimsPrefix(rows: seq<seq<Step>>, i: nat)
    requires i < |rows|
    ensures SumDims(rows[..i + 1]) == SumDims(rows[..i]) + |rows[i]|
  {
    assert rows[..i + 1][..i] == rows[..i];
  }

  /** A candidate's path is its parent's path plus the chosen token, and its
      score is the step log-probability plus the parent's score. */
  lemma CandidateExtendsParent(rows: seq<seq<Step>>, last: seq<BeamSearchResult>, c: BeamSearchResult)
    requires IsCandidate(rows, last, c)
    ensures c.beamI < |rows| && (last == [] || c.beamI < |last|)
    ensures c.path == ParentPath(last, c.beamI)
                      + [WordIdAndProbability(LastWord(c), rows[c.beamI][LastWord(c)].probability)]
    ensures |c.path| == |ParentPath(last, c.beamI)| + 1
    ensures c.finalLogProbability == rows[c.beamI][LastWord(c)].logProb + ParentScore(last, c.beamI)
  {
  }
}

=== FILE: priority_queue.dfy ===
/** The `std::priority_queue` of graph_builder.h:55-58, ordered by the
    comparator `a.final_log_probability > b.final_log_probability`, which
    puts the candidate with the SMALLEST cumulative log-probability on top.
    The heap layout is not modelled: the queue keeps its elements in
    insertion order and `Top` is a minimal one. */
module PriorityQueue {
  import opened BeamTypes

  /** Position of a minimal element: the first one among equal minima. */
  function MinIndex(s: seq<BeamSearchResult>): (m: nat)
    requires |s| > 0
    ensures m < |s|
    ensures forall k :: 0 <= k < |s| ==> s[m].finalLogProbability <= s[k].finalLogProbability
    ensures forall k :: 0 <= k < m ==> s[k].finalLogProbability > s[m].finalLogProbability
  {
    if |s| == 1 then 0
    else
      var m := MinIndex(s[..|s| - 1]);
      if s[m].finalLogProbability <= s[|s| - 1].finalLogProbability then m else |s| - 1
  }

  /** The queue's contents once a minimal element is removed. */
  function PopMin(s: seq<BeamSearchResult>): (r: seq<BeamSearchResult>)
    requires |s| > 0
    ensures |r| == |s| - 1
    ensures multiset(r) == multiset(s) - multiset{s[MinIndex(s)]}
  {
    var m := MinIndex(s);
    assert s == s[..m] + [s[m]] + s[m + 1..];
    s[..m] + s[m + 1..]
  }

  /** Popping removes the minimum and keeps every other element. */
  lemma PopMinMembers(s: seq<BeamSearchResult>)
    requires |s| > 0
    ensures forall x :: x in PopMin(s) ==> x in s
    ensures forall x :: x in s && x != s[MinIndex(s)] ==> x in PopMin(s)
  {
    var r := PopMin(s);
    forall x | x in r ensures x in s {
      assert multiset(r)[x] > 0;
    }
    forall x | x in s && x != s[MinIndex(s)] ensures x in r {
      assert multiset(r)[x] == multiset(s)[x];
    }
  }

  /** A min-priority queue of candidates. */
  class MinQueue {
    var items: seq<BeamSearchResult>

    constructor ()
      ensures items == []
    {
      items := [];
    }

    /** `top()`: a candidate of least cumulative log-probability. */
    function Top(): (t: BeamSearchResult)
      reads this
      requires |items| > 0
      ensures t in items
      ensures forall x :: x in items ==> t.finalLogProbability <= x.finalLogProbability
    {
      items[MinIndex(items)]
    }

    /** `push(x)`. */
    method Push(x: BeamSearchResult)
      modifies this
      ensures items == old(items) + [x]
      ensures multiset(items) == old(multiset(items)) + multiset{x}
    {
      items := items + [x];
    }

    /** `pop()`: removes exactly the element `Top` designates. */
    method Pop()
      requires |items| > 0
      modifies this
      ensures items == old(PopMin(items))
      ensures multiset(items) == old(multiset(items)) - multiset{old(Top())}
    {
      var m := MinIndex(items);
      items := items[..m] + items[m + 1..];
    }
  }
}

=== FILE: search.dfy ===
/** The search/retire/select loop of
    `GraphBuilder::forwardDecoderUsingBeamSearch` (graph_builder.h:177-256),
    with the decoder step and its log-softmax supplied by an oracle. */
module Search {
  import opened BeamTypes
  import opened TopK

  /** A finished hypothesis: its token path and cumulative log-probability
      (the `std::pair` pushed into `word_ids_result`). */
  datatype FinishedResult = FinishedResult(path: seq<WordIdAndProbability>, logProbability: int)

  /** What the search returns: the selected hypothesis, or one of the two
      ways it fails. `FinishedCountMismatch` is the abort at lines 243-247;
      `NoFinishedResult` is a search seeded with no beam, where `max_element`
      returns the end of an empty range and the source dereferences it. */
  datatype SearchOutcome =
    | Chosen(choice: FinishedResult)
    | FinishedCountMismatch(finished: nat, beamSize: nat)
    | NoFinishedResult

  /** The decoder step: the scores one beam offers at a step, given the
      path that beam has chosen so far (empty at step 0). */
  type Oracle<!B> = (nat, B, seq<WordIdAndProbability>) -> seq<Step>

  /** Every decoder step offers at least one token (a non-empty vocabulary). */
  ghost predicate OffersTokens<B(!new)>(oracle: Oracle<B>)
  {
    forall n, b, p :: |oracle(n, b, p)| > 0
  }

  /** Every token of `path` is one the decoder offered at its step, fed
      beam `b` and the tokens before it, with the probability it reported. */
  ghost predicate Offered<B(!new)>(oracle: Oracle<B>, b: B, path: seq<WordIdAndProbability>)
  {
    path == [] ||
    var n := |path| - 1;
    && Offered(oracle, b, path[..n])
    && path[n].wordId < |oracle(n, b, path[..n])|
    && path[n].probability == oracle(n, b, path[..n])[path[n].wordId].probability
  }

  /** Sum of the step log-probabilities the decoder gave the tokens of
      `path`, each at its own step. */
  ghost function PathScore<B(!new)>(oracle: Oracle<B>, b: B, path: seq<WordIdAndProbability>): int
    requires Offered(oracle, b, path)
  {
    if path == [] then 0
    else
      var n := |path| - 1;
      PathScore(oracle, b, path[..n]) + oracle(n, b, path[..n])[path[n].wordId].logProb
  }

  /** Choosing an offered token extends an offered path, and adds that
      token's step log-probability to the path's score. */
  lemma ExtendOffered<B(!new)>(oracle: Oracle<B>, b: B, path: seq<WordIdAndProbability>, j: nat)
    requires Offered(oracle, b, path)
    requires j < |oracle(|path|, b, path)|
    ensures var w := WordIdAndProbability(j, oracle(|path|, b, path)[j].probability);
            Offered(oracle, b, path + [w])
            && PathScore(oracle, b, path + [w]) == PathScore(oracle, b, path) + oracle(|path|, b, path)[j].logProb
  {
    var w := WordIdAndProbability(j, oracle(|path|, b, path)[j].probability);
    assert (path + [w])[..|path|] == path;
  }

  /** `path` was decoded from beam `b` and `score` is its cumulative
      log-probability. */
  ghost predicate Decoded<B(!new)>(oracle: Oracle<B>, b: B, path: seq<WordIdAndProbability>, score: int)
  {
    Offered(oracle, b, path) && score == PathScore(oracle, b, path)
  }

  /** A finished hypothesis was decoded from one of the seeded beams. */
  ghost predicate FromSeed<B(!new)>(oracle: Oracle<B>, initial: seq<B>, f: FinishedResult)
  {
    exists b :: b in initial && Decoded(oracle, b, f.path, f.logProbability)
  }

  /** Every decoder step gives a non-positive log-probability, as a
      log-softmax does. */
  ghost predicate NonPositiveSteps<B(!new)>(oracle: Oracle<B>)
  {
    forall n, b, p, j :: 0 <= j < |oracle(n, b, p)| ==> oracle(n, b, p)[j].logProb <= 0
  }

  /** With non-positive step log-probabilities a path never scores more
      than any of its prefixes: the score never rises as a path grows. */
  lemma {:induction false} ScoreNeverRises<B(!new)>(oracle: Oracle<B>, b: B, path: seq<WordIdAndProbability>, m: nat)
    requires NonPositiveSteps(oracle)
    requires Offered(oracle, b, path) && m <= |path|
    ensures Offered(oracle, b, path[..m])
    ensures PathScore(oracle, b, path) <= PathScore(oracle, b, path[..m])
  {
    if m < |path| {
      var n := |path| - 1;
      ScoreNeverRises(oracle, b, path[..n], m);
      assert path[..n][..m] == path[..m];
    } else {
      assert path[..m] == path;
    }
  }

  /** With non-positive steps, a finished hypothesis scores no more than
      any prefix of its path decoded from the same seed, and so at most 0. */
  lemma FinishedScoreBounded<B(!new)>(oracle: Oracle<B>, initial: seq<B>, f: FinishedResult, m: nat)
    requires NonPositiveSteps(oracle) && FromSeed(oracle, initial, f) && m <= |f.path|
    ensures f.logProbability <= 0
    ensures exists b :: b in initial && Offered(oracle, b, f.path[..m])
              && f.logProbability <= PathScore(oracle, b, f.path[..m])
  {
    var b :| b in initial && Decoded(oracle, b, f.path, f.logProbability);
    ScoreNeverRises(oracle, b, f.path, m);
    ScoreNeverRises(oracle, b, f.path, 0);
  }

  predicate PathsNonEmpty(rs: seq<BeamSearchResult>)
  {
    forall k :: 0 <= k < |rs| ==> |rs[k].path| > 0
  }

  /** Line 210: a candidate is finished when it ends with the stop token or
      the round has reached the ceiling. `FinishedOf` and `SurvivorsOf`,
      which specify `Retire`, split on this test. */
  predicate Retires(c: BeamSearchResult, round: nat, stop: nat)
    requires |c.path| > 0
  {
    LastWord(c) == stop || round >= MaxSteps
  }

  function ToFinished(c: BeamSearchResult): FinishedResult
  {
    FinishedResult(c.path, c.finalLogProbability)
  }

  /** The candidates retired this round, in ranking order. */
  function FinishedOf(rs: seq<BeamSearchResult>, round: nat, stop: nat): seq<FinishedResult>
    requires PathsNonEmpty(rs)
  {
    if rs == [] then []
    else
      var c := rs[|rs| - 1];
      FinishedOf(rs[..|rs| - 1], round, stop) + (if Retires(c, round, stop) then [ToFinished(c)] else [])
  }

  /** The candidates that carry on, in ranking order. */
  function SurvivorsOf(rs: seq<BeamSearchResult>, round: nat, stop: nat): seq<BeamSearchResult>
    requires PathsNonEmpty(rs)
  {
    if rs == [] then []
    else
      var c := rs[|rs| - 1];
      SurvivorsOf(rs[..|rs| - 1], round, stop) + (if Retires(c, round, stop) then [] else [c])
  }

  /** Retirement loses and duplicates nothing: every candidate goes to
      exactly one side. */
  lemma {:induction false} PartitionSizes(rs: seq<BeamSearchResult>, round: nat, stop: nat)
    requires PathsNonEmpty(rs)
    ensures |FinishedOf(rs, round, stop)| + |SurvivorsOf(rs, round, stop)| == |rs|
  {
    if rs != [] {
      PartitionSizes(rs[..|rs| - 1], round, stop);
    }
  }

  /** The survivors are exactly the candidates that do not retire. */
  lemma {:induction false} SurvivorsExactly(rs: seq<BeamSearchResult>, round: nat, stop: nat)
    requires PathsNonEmpty(rs)
    ensures forall c :: c in SurvivorsOf(rs, round, stop) ==> c in rs && |c.path| > 0 && !Retires(c, round, stop)
    ensures forall k :: 0 <= k < |rs| && !Retires(rs[k], round, stop) ==> rs[k] in SurvivorsOf(rs, round, stop)
  {
    if rs != [] {
      var init := rs[..|rs| - 1];
      SurvivorsExactly(init, round, stop);
      forall k | 0 <= k < |rs| && !Retires(rs[k], round, stop)
        ensures rs[k] in SurvivorsOf(rs, round, stop)
      {
        if k < |rs| - 1 { assert rs[k] == init[k]; }
      }
    }
  }

  /** The finished entries are exactly the retiring candidates. */
  lemma {:induction false} FinishedExactly(rs: seq<BeamSearchResult>, round: nat, stop: nat)
    requires PathsNonEmpty(rs)
    ensures forall f :: f in FinishedOf(rs, round, stop) ==>
              exists k :: 0 <= k < |rs| && Retires(rs[k], round, stop) && f == ToFinished(rs[k])
    ensures forall k :: 0 <= k < |rs| && Retires(rs[k], round, stop) ==> ToFinished(rs[k]) in FinishedOf(rs, round, stop)
  {
    if rs != [] {
      var init := rs[..|rs| - 1];
      FinishedExactly(init, round, stop);
      forall f | f in FinishedOf(rs, round, stop)
        ensures exists k :: 0 <= k < |rs| && Retires(rs[k], round, stop) && f == ToFinished(rs[k])
      {
        if f in FinishedOf(init, round, stop) {
          var k :| 0 <= k < |init| && Retires(init[k], round, stop) && f == ToFinished(init[k]);
          assert rs[k] == init[k];
        } else {
          assert f == ToFinished(rs[|rs| - 1]);
        }
      }
      forall k | 0 <= k < |rs| && Retires(rs[k], round, stop)
        ensures ToFinished(rs[k]) in FinishedOf(rs, round, stop)
      {
        if k < |rs| - 1 { assert rs[k] == init[k]; }
      }
    }
  }

  /** Survivors keep their relative order: retiring distributes over
      concatenation. */
  lemma {:induction false} SurvivorsKeepOrder(a: seq<BeamSearchResult>, b: seq<BeamSearchResult>, round: nat, stop: nat)
    requires PathsNonEmpty(a) && PathsNonEmpty(b)
    ensures PathsNonEmpty(a + b)
    ensures SurvivorsOf(a + b, round, stop) == SurvivorsOf(a, round, stop) + SurvivorsOf(b, round, stop)
  {
    if b != [] {
      var b' := b[..|b| - 1];
      assert (a + b)[..|a + b| - 1] == a + b';
      SurvivorsKeepOrder(a, b', round, stop);
    } else {
      assert a + b == a;
    }
  }

  /** At the ceiling nobody survives. */
  lemma {:induction false} NoSurvivorAtCeiling(rs: seq<BeamSearchResult>, round: nat, stop: nat)
    requires PathsNonEmpty(rs) && round >= MaxSteps
    ensures SurvivorsOf(rs, round, stop) == []
  {
    if rs != [] {
      NoSurvivorAtCeiling(rs[..|rs| - 1], round, stop);
    }
  }

  /** What a finished hypothesis looks like: between 1 and `MaxSteps`
      tokens, and it ends with the stop token unless the ceiling cut it. */
  predicate FinishedShape(f: FinishedResult, stop: nat)
  {
    1 <= |f.path| <= MaxSteps
    && (f.path[|f.path| - 1].wordId == stop || |f.path| == MaxSteps)
  }

  /** Retiring candidates of round `round`, whose paths have `round`
      tokens, yields finished hypotheses of the expected shape. */
  lemma RetiredShape(rs: seq<BeamSearchResult>, round: nat, stop: nat)
    requires 1 <= round <= MaxSteps
    requires forall k :: 0 <= k < |rs| ==> |rs[k].path| == round
    ensures PathsNonEmpty(rs)
    ensures forall f :: f in FinishedOf(rs, round, stop) ==> FinishedShape(f, stop)
  {
    FinishedExactly(rs, round, stop);
  }

  /** Lines 201-225: split the ranked candidates into the finished ones and
      the survivors, and rebuild the beam list from the survivors' origin
      beams. */
  method Retire<B>(round: nat, results: seq<BeamSearchResult>, lastBeam: seq<B>, stop: nat)
    returns (finished: seq<FinishedResult>, survivors: seq<BeamSearchResult>, beam: seq<B>)
    requires PathsNonEmpty(results)
    requires forall k :: 0 <= k < |results| ==> results[k].beamI < |lastBeam|
    ensures finished == FinishedOf(results, round, stop)
    ensures survivors == SurvivorsOf(results, round, stop)
    ensures |beam| == |survivors|
    ensures forall k :: 0 <= k < |survivors| ==>
              survivors[k].beamI < |lastBeam| && beam[k] == lastBeam[survivors[k].beamI]
  {
    finished, survivors, beam := [], [], [];
    var j := 0;
    while j < |results|
      invariant 0 <= j <= |results|
      invariant finished == FinishedOf(results[..j], round, stop)
      invariant survivors == SurvivorsOf(results[..j], round, stop)
      invariant |beam| == |survivors|
      invariant forall k :: 0 <= k < |survivors| ==>
                  survivors[k].beamI < |lastBeam| && beam[k] == lastBeam[survivors[k].beamI]
    {
      var c := results[j];
      var lastWordId := c.path[|c.path| - 1].wordId;
      if lastWordId == stop || round >= MaxSteps {
        finished := finished + [FinishedResult(c.path, c.finalLogProbability)];
      } else {
        survivors := survivors + [c];
        beam := beam + [lastBeam[c.beamI]];
      }
      assert results[..j + 1][..j] == results[..j];
      j := j + 1;
    }
    assert results[..|results|] == results;
  }

  /** Lines 232-238 and 193-199: advance every active beam by one decoder
      step, feeding it its survivor's path (nothing at step 0), and collect
      one score row per beam in beam order. */
  method AdvanceBeams<B>(step: nat, beam: seq<B>, answers: seq<BeamSearchResult>, oracle: Oracle<B>)
    returns (rows: seq<seq<Step>>)
    requires answers == [] || |answers| == |beam|
    ensures |rows| == |beam|
    ensures forall k :: 0 <= k < |beam| ==> rows[k] == oracle(step, beam[k], ParentPath(answers, k))
  {
    rows := [];
    var k := 0;
    while k < |beam|
      invariant 0 <= k <= |beam|
      invariant |rows| == k
      invariant forall k' :: 0 <= k' < k ==> rows[k'] == oracle(step, beam[k'], ParentPath(answers, k'))
    {
      rows := rows + [oracle(step, beam[k], ParentPath(answers, k))];
      k := k + 1;
    }
  }

  /** `m` is the first position holding the smallest log-probability. */
  predicate IsFirstMin(s: seq<FinishedResult>, m: nat)
  {
    m < |s|
    && (forall k :: 0 <= k < |s| ==> s[m].logProbability <= s[k].logProbability)
    && (forall k :: 0 <= k < m ==> s[k].logProbability > s[m].logProbability)
  }

  /** `m` is the first position holding the largest log-probability. */
  predicate IsFirstMax(s: seq<FinishedResult>, m: nat)
  {
    m < |s|
    && (forall k :: 0 <= k < |s| ==> s[k].logProbability <= s[m].logProbability)
    && (forall k :: 0 <= k < m ==> s[k].logProbability < s[m].logProbability)
  }

  /** Lines 249-253 as written: `std::max_element` with the comparator
      `a.second > b.second`. It keeps the current element unless the
      comparator says it is "less" than the next, i.e. unless the next has a
      strictly smaller score, so it selects the first minimum. */
  method MaxElementGreater(s: seq<FinishedResult>) returns (m: nat)
    requires |s| > 0
    ensures IsFirstMin(s, m)
  {
    m := 0;
    var it := 1;
    while it < |s|
      invariant 1 <= it <= |s| && m < it
      invariant forall k :: 0 <= k < it ==> s[m].logProbability <= s[k].logProbability
      invariant forall k :: 0 <= k < m ==> s[k].logProbability > s[m].logProbability
    {
      if s[m].logProbability > s[it].logProbability {
        m := it;
      }
      it := it + 1;
    }
  }

  /** Two finished hypotheses on which the selection as written returns the
      less likely one. */
  lemma AsWrittenSelectsLeastLikely(m: nat)
    requires IsFirstMin([FinishedResult([WordIdAndProbability(0, 0.5)], -1),
                         FinishedResult([WordIdAndProbability(1, 0.25)], -2)], m)
    ensures m == 1
    ensures !IsFirstMax([FinishedResult([WordIdAndProbability(0, 0.5)], -1),
                         FinishedResult([WordIdAndProbability(1, 0.25)], -2)], m)
  {
    var s := [FinishedResult([WordIdAndProbability(0, 0.5)], -1),
              FinishedResult([WordIdAndProbability(1, 0.25)], -2)];
    assert s[m].logProbability <= s[1].logProbability;
    assert s[0].logProbability > s[m].logProbability;
  }

  /** The selection the search evidently intends: `std::max_element` with
      the comparator `a.second < b.second`, the first most likely result. */
  method SelectBest(s: seq<FinishedResult>) returns (m: nat)
    requires |s| > 0
    ensures IsFirstMax(s, m)
  {
    m := 0;
    var it := 1;
    while it < |s|
      invariant 1 <= it <= |s| && m < it
      invariant forall k :: 0 <= k < it ==> s[k].logProbability <= s[m].logProbability
      invariant forall k :: 0 <= k < m ==> s[k].logProbability < s[m].logProbability
    {
      if s[m].logProbability < s[it].logProbability {
        m := it;
      }
      it := it + 1;
    }
  }

  /** One round of the search as it happened: the active beams, the score
      rows their decoder step gave, the previous results they extend, and
      the ranking `mostLikeResults` made of the extensions. */
  datatype Round<B> = Round(beam: seq<B>, rows: seq<seq<Step>>, last: seq<BeamSearchResult>,
                            ranked: seq<BeamSearchResult>)

  /** Round `step` scored each active beam with the decoder and ranked the
      extensions as a top-k selection. */
  ghost predicate RoundRanked<B(!new)>(oracle: Oracle<B>, t: Round<B>, step: nat)
  {
    && |t.rows| == |t.beam| && Aligned(t.rows, t.last)
    && (forall k :: 0 <= k < |t.rows| ==> t.rows[k] == oracle(step, t.beam[k], ParentPath(t.last, k)))
    && TopKOf(t.rows, t.last, t.ranked)
    && PathsNonEmpty(t.ranked)
  }

  /** `beam` and `last` are what retirement at round `round` leaves of
      `prev`: its survivors, each with the beam it extended. */
  ghost predicate Follows<B>(prev: Round<B>, beam: seq<B>, last: seq<BeamSearchResult>, round: nat, stop: nat)
  {
    && PathsNonEmpty(prev.ranked)
    && last == SurvivorsOf(prev.ranked, round, stop)
    && |beam| == |last|
    && forall k :: 0 <= k < |last| ==> last[k].beamI < |prev.beam| && beam[k] == prev.beam[last[k].beamI]
  }

  /** `trace` is a run of the search from `initial`: the first round starts
      from the seeded beams with no previous results, and every later one
      from the survivors of the round before. */
  ghost predicate Trace<B(!new)>(oracle: Oracle<B>, initial: seq<B>, stop: nat, trace: seq<Round<B>>)
  {
    trace == [] ||
    var r := |trace| - 1;
    && Trace(oracle, initial, stop, trace[..r])
    && RoundRanked(oracle, trace[r], r)
    && if r == 0 then trace[r].beam == initial && trace[r].last == []
       else Follows(trace[r - 1], trace[r].beam, trace[r].last, r, stop)
  }

  /** Nothing survived the last round of `trace`, so the search stops
      there. */
  ghost predicate Exhausted<B>(trace: seq<Round<B>>, stop: nat)
  {
    trace != [] ==>
      var last := trace[|trace| - 1];
      PathsNonEmpty(last.ranked) && SurvivorsOf(last.ranked, |trace|, stop) == []
  }

  /** Every hypothesis the rounds of `trace` retired, in order. */
  ghost function TraceFinished<B>(trace: seq<Round<B>>, stop: nat): seq<FinishedResult>
    requires forall r :: 0 <= r < |trace| ==> PathsNonEmpty(trace[r].ranked)
  {
    if trace == [] then []
    else
      var r := |trace| - 1;
      TraceFinished(trace[..r], stop) + FinishedOf(trace[r].ranked, r + 1, stop)
  }

  /** A round that starts where `trace` left off extends the run. */
  lemma TraceExtends<B(!new)>(oracle: Oracle<B>, initial: seq<B>, stop: nat, trace: seq<Round<B>>, t: Round<B>)
    requires Trace(oracle, initial, stop, trace)
    requires forall r :: 0 <= r < |trace| ==> PathsNonEmpty(trace[r].ranked)
    requires RoundRanked(oracle, t, |trace|)
    requires if trace == [] then t.beam == initial && t.last == []
             else Follows(trace[|trace| - 1], t.beam, t.last, |trace|, stop)
    ensures Trace(oracle, initial, stop, trace + [t])
    ensures forall r :: 0 <= r < |trace + [t]| ==> PathsNonEmpty((trace + [t])[r].ranked)
    ensures TraceFinished(trace + [t], stop) == TraceFinished(trace, stop) + FinishedOf(t.ranked, |trace| + 1, stop)
  {
    var trace' := trace + [t];
    assert trace'[..|trace|] == trace;
    assert trace'[|trace|] == t;
    assert |trace| > 0 ==> trace'[|trace| - 1] == trace[|trace| - 1];
    forall r | 0 <= r < |trace'| ensures PathsNonEmpty(trace'[r].ranked) {
      if r < |trace| {
        assert trace'[r] == trace[r];
      }
    }
  }

  /** The beam search. `initial` are the seeded beams, `stop` the id of the
      stop symbol and `oracle` the decoder step. Returns every finished
      hypothesis, in the order they were retired, and the outcome. */
  method BeamSearch<B(!new)>(initial: seq<B>, stop: nat, oracle: Oracle<B>)
    returns (finished: seq<FinishedResult>, outcome: SearchOutcome, ghost trace: seq<Round<B>>)
    ensures Trace(oracle, initial, stop, trace) && |trace| <= MaxSteps
    ensures forall r :: 0 <= r < |trace| ==> PathsNonEmpty(trace[r].ranked)
    ensures finished == TraceFinished(trace, stop)
    ensures trace == [] <==> initial == []
    ensures Exhausted(trace, stop)
    ensures |finished| <= |initial|
    ensures OffersTokens(oracle) ==> |finished| == |initial|
    ensures forall f :: f in finished ==> FinishedShape(f, stop)
    ensures outcome.FinishedCountMismatch? <==> |finished| != |initial|
    ensures outcome.FinishedCountMismatch? ==>
              outcome.finished == |finished| && outcome.beamSize == |initial|
    ensures outcome.NoFinishedResult? <==> initial == []
    ensures initial != [] && OffersTokens(oracle) ==> outcome.Chosen?
    ensures outcome.Chosen? ==>
              exists m: nat :: IsFirstMax(finished, m) && outcome.choice == finished[m]
    ensures forall f :: f in finished ==> FromSeed(oracle, initial, f)
  {
    finished, trace := RunRounds(initial, stop, oracle);
    outcome := Conclude(finished, |initial|);
  }

  /** Lines 185-241: the search loop proper, round after round until no
      beam is left, collecting the finished hypotheses. */
  method RunRounds<B(!new)>(initial: seq<B>, stop: nat, oracle: Oracle<B>)
    returns (finished: seq<FinishedResult>, ghost trace: seq<Round<B>>)
    ensures Completed(oracle, initial, stop, finished, trace)
  {
    finished, trace := [], [];
    if initial == [] {
      SearchEnds(oracle, initial, stop, 0, [], initial, finished, trace);
      return;
    }
    // Round 0 only advances the seeded beams.
    var beam := initial;
    var mostLike: seq<BeamSearchResult> := [];
    var rows := AdvanceBeams(0, beam, mostLike, oracle);
    ReadyNext(oracle, initial, stop, 0, rows, mostLike, beam, finished, trace);
    var i := 1;
    while true
      invariant Ready(oracle, initial, stop, i, rows, mostLike, beam, finished, trace)
      decreases MaxSteps - i
    {
      finished, mostLike, beam, rows, trace := SearchRound(i, rows, mostLike, beam, finished, stop, oracle, initial, trace);
      if beam == [] {
        break;
      }
      i := i + 1;
    }
    SearchEnds(oracle, initial, stop, i, mostLike, beam, finished, trace);
  }

  /** The state at the head of round `i` (1 or later) of the search loop:
      the active beams come from the seeds and carry decoded paths of
      `i - 1` tokens, `rows` is what the decoder offered them, and the run so
      far has `i - 1` rounds which leave exactly these beams and retired
      exactly `finished`. */
  ghost predicate Ready<B(!new)>(oracle: Oracle<B>, initial: seq<B>, stop: nat, i: nat, rows: seq<seq<Step>>,
                                 mostLike: seq<BeamSearchResult>, beam: seq<B>, finished: seq<FinishedResult>,
                                 trace: seq<Round<B>>)
  {
    && 1 <= i <= MaxSteps
    && (i == 1 ==> mostLike == [] && finished == [] && beam == initial)
    && (i >= 2 ==> |mostLike| == |beam|)
    && |beam| > 0 && |rows| == |beam|
    && |finished| + |beam| <= |initial|
    && (OffersTokens(oracle) ==> |finished| + |beam| == |initial| && NoEmptyRow(rows))
    && (forall k :: 0 <= k < |mostLike| ==> |mostLike[k].path| == i - 1)
    && (forall f :: f in finished ==> FinishedShape(f, stop) && FromSeed(oracle, initial, f))
    && (forall k :: 0 <= k < |beam| ==> beam[k] in initial)
    && (forall k :: 0 <= k < |mostLike| && k < |beam| ==>
          Decoded(oracle, beam[k], mostLike[k].path, mostLike[k].finalLogProbability))
    && (forall k :: 0 <= k < |rows| && (mostLike == [] || k < |mostLike|) ==>
          rows[k] == oracle(i - 1, beam[k], ParentPath(mostLike, k)))
    && Trace(oracle, initial, stop, trace) && |trace| == i - 1
    && (forall r :: 0 <= r < |trace| ==> PathsNonEmpty(trace[r].ranked))
    && finished == TraceFinished(trace, stop)
    && if trace == [] then beam == initial && mostLike == []
       else Follows(trace[|trace| - 1], beam, mostLike, |trace|, stop)
  }

  /** The state after round `i`: the surviving beams come from the seeds
      and carry decoded paths of `i` tokens, every finished hypothesis has
      the right shape and was decoded from a seed, and the run has `i`
      rounds which leave exactly these beams and retired exactly
      `finished`. */
  ghost predicate Retired<B(!new)>(oracle: Oracle<B>, initial: seq<B>, stop: nat, i: nat,
                                   mostLike: seq<BeamSearchResult>, beam: seq<B>, finished: seq<FinishedResult>,
                                   trace: seq<Round<B>>)
  {
    && 1 <= i && |mostLike| == |beam|
    && |finished| + |beam| <= |initial|
    && (OffersTokens(oracle) ==> |finished| + |beam| == |initial|)
    && (forall k :: 0 <= k < |mostLike| ==> |mostLike[k].path| == i)
    && (forall f :: f in finished ==> FinishedShape(f, stop) && FromSeed(oracle, initial, f))
    && (forall k :: 0 <= k < |beam| ==>
          beam[k] in initial && Decoded(oracle, beam[k], mostLike[k].path, mostLike[k].finalLogProbability))
    && Trace(oracle, initial, stop, trace) && |trace| == i
    && (forall r :: 0 <= r < |trace| ==> PathsNonEmpty(trace[r].ranked))
    && finished == TraceFinished(trace, stop)
    && Follows(trace[|trace| - 1], beam, mostLike, |trace|, stop)
  }

  /** Advancing the seeded beams, or those that survived round `i`, by one
      decoder step readies the next round. */
  lemma ReadyNext<B(!new)>(oracle: Oracle<B>, initial: seq<B>, stop: nat, i: nat, rows: seq<seq<Step>>,
                           mostLike: seq<BeamSearchResult>, beam: seq<B>, finished: seq<FinishedResult>,
                           trace: seq<Round<B>>)
    requires i < MaxSteps && beam != []
    requires i == 0 ==> mostLike == [] && finished == [] && beam == initial && trace == []
    requires i >= 1 ==> Retired(oracle, initial, stop, i, mostLike, beam, finished, trace)
    requires |rows| == |beam|
    requires forall k :: 0 <= k < |beam| ==> rows[k] == oracle(i, beam[k], ParentPath(mostLike, k))
    ensures Ready(oracle, initial, stop, i + 1, rows, mostLike, beam, finished, trace)
  {
  }

  /** What the search loop delivers: `trace` is a run from `initial` of at
      most 100 rounds that ends with no survivor, empty exactly when nothing
      was seeded; `finished` is what its rounds retired, at most one per
      seeded beam and exactly one when every step offers a token, each of
      the right shape and decoded from a seed. */
  ghost predicate Completed<B(!new)>(oracle: Oracle<B>, initial: seq<B>, stop: nat, finished: seq<FinishedResult>,
                                     trace: seq<Round<B>>)
  {
    && Trace(oracle, initial, stop, trace) && |trace| <= MaxSteps
    && (forall r :: 0 <= r < |trace| ==> PathsNonEmpty(trace[r].ranked))
    && finished == TraceFinished(trace, stop)
    && (trace == [] <==> initial == [])
    && Exhausted(trace, stop)
    && |finished| <= |initial|
    && (OffersTokens(oracle) ==> |finished| == |initial|)
    && forall f :: f in finished ==> FinishedShape(f, stop) && FromSeed(oracle, initial, f)
  }

  /** When no beam is left the run is complete: nothing survived its last
      round, and every hypothesis it retired was decoded from a seed. */
  lemma SearchEnds<B(!new)>(oracle: Oracle<B>, initial: seq<B>, stop: nat, i: nat,
                            mostLike: seq<BeamSearchResult>, beam: seq<B>, finished: seq<FinishedResult>,
                            trace: seq<Round<B>>)
    requires i <= MaxSteps && beam == []
    requires i == 0 ==> initial == [] && finished == [] && trace == []
    requires i >= 1 ==> initial != [] && Retired(oracle, initial, stop, i, mostLike, beam, finished, trace)
    ensures Completed(oracle, initial, stop, finished, trace)
  {
    if i >= 1 {
      assert Follows(trace[|trace| - 1], beam, mostLike, |trace|, stop);
    }
  }

  /** Lines 190-239, one pass of the search loop: the round of
      `SelectAndRetire`, with the finished hypotheses appended to those of
      earlier rounds and the round appended to the run so far, then, if any
      beam survives, one decoder step for each survivor, whose score rows
      it returns (none when no beam survives). */
  method SearchRound<B(!new)>(i: nat, rows: seq<seq<Step>>, mostLike: seq<BeamSearchResult>, beam: seq<B>,
                              finished: seq<FinishedResult>, stop: nat, oracle: Oracle<B>, ghost initial: seq<B>,
                              ghost trace: seq<Round<B>>)
    returns (finished': seq<FinishedResult>, mostLike': seq<BeamSearchResult>, beam': seq<B>,
             rows': seq<seq<Step>>, ghost trace': seq<Round<B>>)
    requires Ready(oracle, initial, stop, i, rows, mostLike, beam, finished, trace)
    ensures |finished'| + |beam'| <= |finished| + |beam|
    ensures NoEmptyRow(rows) ==> |finished'| + |beam'| == |finished| + |beam|
    ensures beam' == [] ==> rows' == [] && Retired(oracle, initial, stop, i, mostLike', beam', finished', trace')
    ensures beam' != [] ==> i < MaxSteps && Ready(oracle, initial, stop, i + 1, rows', mostLike', beam', finished', trace')
  {
    var retired, survivors, nextBeam, ranked := SelectAndRetire(i, rows, mostLike, beam, stop, oracle, initial);
    var t := Round(beam, rows, mostLike, ranked);
    TraceExtends(oracle, initial, stop, trace, t);
    assert retired == FinishedOf(t.ranked, |trace| + 1, stop);
    trace' := trace + [t];
    finished' := finished + retired;
    mostLike' := survivors;
    beam' := nextBeam;
    assert trace'[|trace'| - 1] == t;
    assert Retired(oracle, initial, stop, i, mostLike', beam', finished', trace');
    rows' := [];
    if beam' != [] {
      rows' := AdvanceBeams(i, beam', mostLike', oracle);
      ReadyNext(oracle, initial, stop, i, rows', mostLike', beam', finished', trace');
    }
  }

  /** Lines 243-255: abort unless every beam finished, then pick the most
      likely finished hypothesis (with the corrected comparator). */
  method Conclude(finished: seq<FinishedResult>, beamSize: nat) returns (outcome: SearchOutcome)
    ensures outcome.FinishedCountMismatch? <==> |finished| != beamSize
    ensures outcome.FinishedCountMismatch? ==> outcome.finished == |finished| && outcome.beamSize == beamSize
    ensures outcome.NoFinishedResult? <==> |finished| == beamSize && finished == []
    ensures outcome.Chosen? <==> |finished| == beamSize && finished != []
    ensures outcome.Chosen? ==>
              exists m: nat :: IsFirstMax(finished, m) && outcome.choice == finished[m]
  {
    if |finished| != beamSize {
      return FinishedCountMismatch(|finished|, beamSize);
    }
    if finished == [] {
      return NoFinishedResult;
    }
    var m := SelectBest(finished);
    return Chosen(finished[m]);
  }

  /** Lines 200-225, one round of ranking and retirement: rank every
      extension of the active beams, retire the finished ones and rebuild the
      beam list from the survivors. */
  method SelectAndRetire<B(!new)>(round: nat, rows: seq<seq<Step>>, mostLike: seq<BeamSearchResult>, beam: seq<B>,
                                  stop: nat, ghost oracle: Oracle<B>, ghost initial: seq<B>)
    returns (retired: seq<FinishedResult>, survivors: seq<BeamSearchResult>, nextBeam: seq<B>,
             ghost ranked: seq<BeamSearchResult>)
    requires 1 <= round <= MaxSteps
    requires |rows| == |beam| && (mostLike == [] || |mostLike| == |beam|)
    requires mostLike == [] ==> round == 1
    requires forall k :: 0 <= k < |mostLike| ==> |mostLike[k].path| == round - 1
    requires forall k :: 0 <= k < |beam| ==> beam[k] in initial
    requires forall k :: 0 <= k < |mostLike| ==>
               Decoded(oracle, beam[k], mostLike[k].path, mostLike[k].finalLogProbability)
    requires forall k :: 0 <= k < |rows| ==> rows[k] == oracle(round - 1, beam[k], ParentPath(mostLike, k))
    ensures |retired| + |nextBeam| <= |beam|
    ensures NoEmptyRow(rows) ==> |retired| + |nextBeam| == |beam|
    ensures round >= MaxSteps ==> nextBeam == []
    ensures |survivors| == |nextBeam|
    ensures forall k :: 0 <= k < |survivors| ==> |survivors[k].path| == round
    ensures forall k :: 0 <= k < |nextBeam| ==>
              nextBeam[k] in initial
              && Decoded(oracle, nextBeam[k], survivors[k].path, survivors[k].finalLogProbability)
    ensures forall f :: f in retired ==> FinishedShape(f, stop) && FromSeed(oracle, initial, f)
    ensures Aligned(rows, mostLike) && TopKOf(rows, mostLike, ranked) && PathsNonEmpty(ranked)
    ensures retired == FinishedOf(ranked, round, stop) && survivors == SurvivorsOf(ranked, round, stop)
    ensures forall k :: 0 <= k < |survivors| ==> survivors[k].beamI < |beam| && nextBeam[k] == beam[survivors[k].beamI]
  {
    var outcome := MostLikeResults(rows, mostLike);
    // One previous result per beam: the size-mismatch abort is never taken.
    assert outcome.Ranked?;
    var results := outcome.results;
    ranked := results;
    RankedShape(rows, mostLike, results, round);
    RankedDecoded(oracle, beam, rows, mostLike, results, round);
    retired, survivors, nextBeam := Retire(round, results, beam, stop);
    RetiredShape(results, round, stop);
    RetiredDecoded(oracle, initial, beam, results, round, stop, survivors, nextBeam);
    PartitionSizes(results, round, stop);
    SurvivorsExactly(results, round, stop);
    forall k | 0 <= k < |survivors| ensures |survivors[k].path| == round {
      assert survivors[k] in results;
    }
    if round >= MaxSteps {
      NoSurvivorAtCeiling(results, round, stop);
    }
    if NoEmptyRow(rows) {
      SumDimsCoversRows(rows);
    }
  }

  /** Candidates ranked at round `round` extend decoded paths by a token the
      decoder offered for their beam, so they are decoded too. */
  lemma RankedDecoded<B(!new)>(oracle: Oracle<B>, beam: seq<B>, rows: seq<seq<Step>>,
                               last: seq<BeamSearchResult>, results: seq<BeamSearchResult>, round: nat)
    requires round >= 1 && (last == [] ==> round == 1)
    requires (last == [] || |last| == |beam|) && |rows| == |beam|
    requires forall k :: 0 <= k < |rows| ==> rows[k] == oracle(round - 1, beam[k], ParentPath(last, k))
    requires forall k :: 0 <= k < |last| ==>
               |last[k].path| == round - 1 && Decoded(oracle, beam[k], last[k].path, last[k].finalLogProbability)
    requires forall c :: c in results ==> IsCandidate(rows, last, c)
    ensures forall k :: 0 <= k < |results| ==>
              results[k].beamI < |beam|
              && Decoded(oracle, beam[results[k].beamI], results[k].path, results[k].finalLogProbability)
  {
    forall k | 0 <= k < |results|
      ensures results[k].beamI < |beam|
              && Decoded(oracle, beam[results[k].beamI], results[k].path, results[k].finalLogProbability)
    {
      var c := results[k];
      CandidateExtendsParent(rows, last, c);
      var parent := ParentPath(last, c.beamI);
      assert |parent| == round - 1;
      ExtendOffered(oracle, beam[c.beamI], parent, LastWord(c));
    }
  }

  /** Retirement keeps the link to the decoder: survivors are decoded from
      their new beams, which are still seeded beams, and every finished
      hypothesis was decoded from a seeded beam. */
  lemma RetiredDecoded<B(!new)>(oracle: Oracle<B>, initial: seq<B>, beam: seq<B>, results: seq<BeamSearchResult>,
                                round: nat, stop: nat, survivors: seq<BeamSearchResult>, nextBeam: seq<B>)
    requires PathsNonEmpty(results)
    requires forall k :: 0 <= k < |beam| ==> beam[k] in initial
    requires forall k :: 0 <= k < |results| ==>
               results[k].beamI < |beam|
               && Decoded(oracle, beam[results[k].beamI], results[k].path, results[k].finalLogProbability)
    requires survivors == SurvivorsOf(results, round, stop)
    requires |nextBeam| == |survivors|
    requires forall k :: 0 <= k < |survivors| ==>
               survivors[k].beamI < |beam| && nextBeam[k] == beam[survivors[k].beamI]
    ensures forall k :: 0 <= k < |nextBeam| ==>
              nextBeam[k] in initial
              && Decoded(oracle, nextBeam[k], survivors[k].path, survivors[k].finalLogProbability)
    ensures forall f :: f in FinishedOf(results, round, stop) ==> FromSeed(oracle, initial, f)
  {
    SurvivorsExactly(results, round, stop);
    FinishedExactly(results, round, stop);
    forall k | 0 <= k < |nextBeam|
      ensures nextBeam[k] in initial
              && Decoded(oracle, nextBeam[k], survivors[k].path, survivors[k].finalLogProbability)
    {
      assert survivors[k] in results;
      var r :| 0 <= r < |results| && results[r] == survivors[k];
    }
    forall f | f in FinishedOf(results, round, stop) ensures FromSeed(oracle, initial, f) {
      var r :| 0 <= r < |results| && Retires(results[r], round, stop) && f == ToFinished(results[r]);
      assert beam[results[r].beamI] in initial;
    }
  }

  /** Candidates ranked at round `round` extend paths of `round - 1` tokens,
      so they carry `round` tokens. */
  lemma RankedShape(rows: seq<seq<Step>>, last: seq<BeamSearchResult>, results: seq<BeamSearchResult>, round: nat)
    requires round >= 1 && (last == [] ==> round == 1)
    requires forall k :: 0 <= k < |last| ==> |last[k].path| == round - 1
    requires forall c :: c in results ==> IsCandidate(rows, last, c)
    ensures forall k :: 0 <= k < |results| ==>
              |results[k].path| == round && results[k].beamI < |rows|
  {
    forall k | 0 <= k < |results|
      ensures |results[k].path| == round && results[k].beamI < |rows|
    {
      CandidateExtendsParent(rows, last, results[k]);
    }
  }
}

=== FILE: top_k.dfy ===
/** `mostLikeResults` (graph_builder.h:43-94): the global top-K selection
    over every (beam, token) extension, K being the number of beams. */
module TopK {
  import opened BeamTypes
  import opened PriorityQueue

  /** The result of `mostLikeResults`: the ranked candidates, or the abort
      taken when the previous results do not come one per beam. */
  datatype TopKOutcome =
    | Ranked(results: seq<BeamSearchResult>)
    | SizeMismatch(nodes: nat, lastResults: nat)

  /** Candidate (i', j') is enumerated before position (i, j). */
  predicate Before(i': nat, j': nat, i: nat, j: nat)
  {
    i' < i || (i' == i && j' < j)
  }

  /** No kept candidate scores below `score`. */
  predicate Below(score: int, kept: seq<BeamSearchResult>)
  {
    forall c :: c in kept ==> score <= c.finalLogProbability
  }

  /** Non-decreasing cumulative log-probability, the order in which a
      min-queue drains. */
  predicate SortedByScore(s: seq<BeamSearchResult>)
  {
    forall a, b :: 0 <= a < b < |s| ==> s[a].finalLogProbability <= s[b].finalLogProbability
  }

  /** No candidate occurs twice. */
  predicate Distinct(s: seq<BeamSearchResult>)
  {
    forall x :: x in s ==> multiset(s)[x] == 1
  }

  /** The specification of `Consider`. Lines 76-81 on the queue's contents:
      push while fewer than `k` are kept, otherwise replace the minimum only
      by a strictly better one. */
  function Offer(kept: seq<BeamSearchResult>, k: nat, c: BeamSearchResult): seq<BeamSearchResult>
    requires k > 0
  {
    if |kept| < k then kept + [c]
    else if kept[MinIndex(kept)].finalLogProbability < c.finalLogProbability then PopMin(kept) + [c]
    else kept
  }

  /** Lines 76-81 on the queue itself. */
  method Consider(queue: MinQueue, k: nat, candidate: BeamSearchResult)
    requires k > 0
    modifies queue
    ensures queue.items == Offer(old(queue.items), k, candidate)
  {
    if |queue.items| < k {
      queue.Push(candidate);
    } else if queue.Top().finalLogProbability < candidate.finalLogProbability {
      queue.Pop();
      queue.Push(candidate);
    }
  }

  /** Every kept candidate was enumerated before (i, j), and none twice. */
  ghost predicate KeptEnumerated(rows: seq<seq<Step>>, last: seq<BeamSearchResult>, kept: seq<BeamSearchResult>, i: nat, j: nat)
  {
    && (forall c :: c in kept ==> IsCandidate(rows, last, c) && Before(c.beamI, LastWord(c), i, j))
    && Distinct(kept)
  }

  /** Every extension enumerated before (i, j) and not kept scores no
      higher than any kept one. */
  ghost predicate RestBelow(rows: seq<seq<Step>>, last: seq<BeamSearchResult>, kept: seq<BeamSearchResult>, i: nat, j: nat)
    requires Aligned(rows, last)
  {
    forall i', j' :: 0 <= i' < |rows| && 0 <= j' < |rows[i']| && Before(i', j', i, j)
      && Extend(rows, last, i', j') !in kept
      ==> Below(Extend(rows, last, i', j').finalLogProbability, kept)
  }

  /** While fewer than `k` are kept, every extension so far is kept. */
  ghost predicate AllKeptWhileShort(rows: seq<seq<Step>>, last: seq<BeamSearchResult>, kept: seq<BeamSearchResult>, k: nat, i: nat, j: nat)
    requires Aligned(rows, last)
  {
    |kept| < k ==>
      forall i', j' :: 0 <= i' < |rows| && 0 <= j' < |rows[i']| && Before(i', j', i, j)
        ==> Extend(rows, last, i', j') in kept
  }

  /** The queue after enumerating up to (i, j) holds a top-k set of what was
      enumerated, of size min(k, number enumerated). */
  ghost predicate Selected(rows: seq<seq<Step>>, last: seq<BeamSearchResult>, kept: seq<BeamSearchResult>, k: nat, i: nat, j: nat)
    requires Aligned(rows, last) && i <= |rows|
  {
    && KeptEnumerated(rows, last, kept, i, j)
    && RestBelow(rows, last, kept, i, j)
    && AllKeptWhileShort(rows, last, kept, k, i, j)
    && |kept| == Min(k, SumDims(rows[..i]) + j)
  }

  lemma OfferPush(rows: seq<seq<Step>>, last: seq<BeamSearchResult>, kept: seq<BeamSearchResult>, k: nat, i: nat, j: nat)
    requires Aligned(rows, last) && i < |rows| && j < |rows[i]| && k > 0
    requires Selected(rows, last, kept, k, i, j) && |kept| < k
    ensures Selected(rows, last, kept + [Extend(rows, last, i, j)], k, i, j + 1)
  {
    AppendEnumerated(rows, last, kept, kept, i, j);
    PushCovers(rows, last, kept, i, j);
  }

  /** While the queue is short it holds every extension so far, so after a
      push nothing enumerated is left out. */
  lemma PushCovers(rows: seq<seq<Step>>, last: seq<BeamSearchResult>, kept: seq<BeamSearchResult>, i: nat, j: nat)
    requires Aligned(rows, last) && i < |rows| && j < |rows[i]|
    requires forall i', j' :: 0 <= i' < |rows| && 0 <= j' < |rows[i']| && Before(i', j', i, j)
               ==> Extend(rows, last, i', j') in kept
    ensures forall i', j' :: 0 <= i' < |rows| && 0 <= j' < |rows[i']| && Before(i', j', i, j + 1)
              ==> Extend(rows, last, i', j') in kept + [Extend(rows, last, i, j)]
  {
    forall i', j' | 0 <= i' < |rows| && 0 <= j' < |rows[i']| && Before(i', j', i, j + 1)
      ensures Extend(rows, last, i', j') in kept + [Extend(rows, last, i, j)]
    {
      if !Before(i', j', i, j) {
        assert i' == i && j' == j;
      }
    }
  }

  lemma OfferReplace(rows: seq<seq<Step>>, last: seq<BeamSearchResult>, kept: seq<BeamSearchResult>, k: nat, i: nat, j: nat)
    requires Aligned(rows, last) && i < |rows| && j < |rows[i]| && k > 0
    requires Selected(rows, last, kept, k, i, j) && |kept| >= k
    requires kept[MinIndex(kept)].finalLogProbability < Extend(rows, last, i, j).finalLogProbability
    ensures Selected(rows, last, PopMin(kept) + [Extend(rows, last, i, j)], k, i, j + 1)
  {
    var kept' := PopMin(kept) + [Extend(rows, last, i, j)];
    assert multiset(PopMin(kept)) <= multiset(kept);
    AppendEnumerated(rows, last, kept, PopMin(kept), i, j);
    ReplaceRestBelow(rows, last, kept, i, j);
    assert |kept'| == |kept| >= k;
  }

  /** Appending extension (i, j) to a sub-multiset of the kept candidates
      keeps them enumerated and distinct. */
  lemma AppendEnumerated(rows: seq<seq<Step>>, last: seq<BeamSearchResult>, kept: seq<BeamSearchResult>,
                         rest: seq<BeamSearchResult>, i: nat, j: nat)
    requires Aligned(rows, last) && i < |rows| && j < |rows[i]|
    requires KeptEnumerated(rows, last, kept, i, j)
    requires multiset(rest) <= multiset(kept)
    ensures KeptEnumerated(rows, last, rest + [Extend(rows, last, i, j)], i, j + 1)
  {
    var c := Extend(rows, last, i, j);
    var kept' := rest + [c];
    assert c !in kept;
    forall x | x in rest ensures x in kept {
      assert multiset(rest)[x] <= multiset(kept)[x];
    }
    forall x | x in kept' ensures multiset(kept')[x] == 1 {
      if x != c {
        assert x in rest;
        assert multiset(rest)[x] <= multiset(kept)[x];
      }
    }
  }

  lemma ReplaceRestBelow(rows: seq<seq<Step>>, last: seq<BeamSearchResult>, kept: seq<BeamSearchResult>, i: nat, j: nat)
    requires Aligned(rows, last) && i < |rows| && j < |rows[i]| && |kept| > 0
    requires RestBelow(rows, last, kept, i, j)
    requires kept[MinIndex(kept)].finalLogProbability < Extend(rows, last, i, j).finalLogProbability
    ensures RestBelow(rows, last, PopMin(kept) + [Extend(rows, last, i, j)], i, j + 1)
  {
    var c := Extend(rows, last, i, j);
    var top := kept[MinIndex(kept)];
    var kept' := PopMin(kept) + [c];
    PopMinMembers(kept);
    forall i', j' | 0 <= i' < |rows| && 0 <= j' < |rows[i']| && Before(i', j', i, j + 1)
        && Extend(rows, last, i', j') !in kept'
      ensures Below(Extend(rows, last, i', j').finalLogProbability, kept')
    {
      var x := Extend(rows, last, i', j');
      if x in kept {
        assert x !in PopMin(kept);
        assert x == top;
      } else {
        assert Before(i', j', i, j);
        assert Below(x.finalLogProbability, kept);
      }
      BelowReplaced(kept, c, x.finalLogProbability);
    }
  }

  /** A score no higher than the evicted minimum is no higher than anything
      left after the replacement. */
  lemma BelowReplaced(kept: seq<BeamSearchResult>, c: BeamSearchResult, score: int)
    requires |kept| > 0
    requires score <= kept[MinIndex(kept)].finalLogProbability < c.finalLogProbability
    ensures Below(score, PopMin(kept) + [c])
  {
    PopMinMembers(kept);
    forall y | y in PopMin(kept) + [c] ensures score <= y.finalLogProbability {
      if y != c {
        assert y in kept;
      }
    }
  }

  lemma OfferReject(rows: seq<seq<Step>>, last: seq<BeamSearchResult>, kept: seq<BeamSearchResult>, k: nat, i: nat, j: nat)
    requires Aligned(rows, last) && i < |rows| && j < |rows[i]| && k > 0
    requires Selected(rows, last, kept, k, i, j) && |kept| >= k
    requires Extend(rows, last, i, j).finalLogProbability <= kept[MinIndex(kept)].finalLogProbability
    ensures Selected(rows, last, kept, k, i, j + 1)
  {
    var c := Extend(rows, last, i, j);
    var top := kept[MinIndex(kept)];
    assert forall x :: x in kept ==> top.finalLogProbability <= x.finalLogProbability;
    assert Below(c.finalLogProbability, kept);
    EnumeratedLater(rows, last, kept, i, j);
    RejectRestBelow(rows, last, kept, i, j);
  }

  /** Moving past (i, j) without keeping it leaves the kept ones enumerated. */
  lemma EnumeratedLater(rows: seq<seq<Step>>, last: seq<BeamSearchResult>, kept: seq<BeamSearchResult>, i: nat, j: nat)
    requires KeptEnumerated(rows, last, kept, i, j)
    ensures KeptEnumerated(rows, last, kept, i, j + 1)
  {
  }

  /** A rejected extension scores no higher than any kept one, so the
      not-kept extensions still lie below the kept ones. */
  lemma RejectRestBelow(rows: seq<seq<Step>>, last: seq<BeamSearchResult>, kept: seq<BeamSearchResult>, i: nat, j: nat)
    requires Aligned(rows, last) && i < |rows| && j < |rows[i]|
    requires RestBelow(rows, last, kept, i, j)
    requires Below(Extend(rows, last, i, j).finalLogProbability, kept)
    ensures RestBelow(rows, last, kept, i, j + 1)
  {
    forall i', j' | 0 <= i' < |rows| && 0 <= j' < |rows[i']| && Before(i', j', i, j + 1)
        && Extend(rows, last, i', j') !in kept
      ensures Below(Extend(rows, last, i', j').finalLogProbability, kept)
    {
      if !Before(i', j', i, j) {
        assert i' == i && j' == j;
      }
    }
  }

  /** Considering one more extension keeps the queue a top-k set. */
  lemma OfferKeepsSelected(rows: seq<seq<Step>>, last: seq<BeamSearchResult>, kept: seq<BeamSearchResult>, k: nat, i: nat, j: nat)
    requires Aligned(rows, last) && i < |rows| && j < |rows[i]| && k > 0
    requires Selected(rows, last, kept, k, i, j)
    ensures Selected(rows, last, Offer(kept, k, Extend(rows, last, i, j)), k, i, j + 1)
  {
    if |kept| < k {
      OfferPush(rows, last, kept, k, i, j);
    } else if kept[MinIndex(kept)].finalLogProbability < Extend(rows, last, i, j).finalLogProbability {
      OfferReplace(rows, last, kept, k, i, j);
    } else {
      OfferReject(rows, last, kept, k, i, j);
    }
  }

  /** Finishing a row is the same as starting the next one. */
  lemma NextRow(rows: seq<seq<Step>>, last: seq<BeamSearchResult>, kept: seq<BeamSearchResult>, k: nat, i: nat)
    requires Aligned(rows, last) && i < |rows|
    requires Selected(rows, last, kept, k, i, |rows[i]|)
    ensures Selected(rows, last, kept, k, i + 1, 0)
  {
    SumDimsPrefix(rows, i);
  }

  /** Lines 64-74: the candidate extending beam `i` by token `j`. */
  method NewCandidate(rows: seq<seq<Step>>, last: seq<BeamSearchResult>, i: nat, j: nat)
    returns (candidate: BeamSearchResult)
    requires Aligned(rows, last) && i < |rows| && j < |rows[i]|
    ensures candidate == Extend(rows, last, i, j)
  {
    var logProbability := rows[i][j].logProb;
    var wordIds: seq<WordIdAndProbability> := [];
    if last != [] {
      logProbability := logProbability + last[i].finalLogProbability;
      wordIds := last[i].path;
    }
    wordIds := wordIds + [WordIdAndProbability(j, rows[i][j].probability)];
    candidate := BeamSearchResult(i, wordIds, logProbability);
  }

  /** Lines 63-82: offer every extension of beam `i` to the queue. */
  method OfferRow(queue: MinQueue, rows: seq<seq<Step>>, last: seq<BeamSearchResult>, k: nat, i: nat)
    requires Aligned(rows, last) && i < |rows| && k > 0
    requires Selected(rows, last, queue.items, k, i, 0)
    modifies queue
    ensures Selected(rows, last, queue.items, k, i + 1, 0)
  {
    var j := 0;
    while j < |rows[i]|
      invariant 0 <= j <= |rows[i]|
      invariant Selected(rows, last, queue.items, k, i, j)
    {
      var candidate := NewCandidate(rows, last, i, j);
      OfferKeepsSelected(rows, last, queue.items, k, i, j);
      Consider(queue, k, candidate);
      j := j + 1;
    }
    NextRow(rows, last, queue.items, k, i);
  }

  /** Draining a queue that went through every row gives the promised
      top-k result. */
  lemma RankedFromKept(rows: seq<seq<Step>>, last: seq<BeamSearchResult>, kept: seq<BeamSearchResult>,
                       results: seq<BeamSearchResult>)
    requires Aligned(rows, last)
    requires Selected(rows, last, kept, |rows|, |rows|, 0)
    requires multiset(results) == multiset(kept) && SortedByScore(results)
    ensures |results| == Min(|rows|, SumDims(rows)) && |results| <= |rows|
    ensures NoEmptyRow(rows) ==> |results| == |rows|
    ensures Distinct(results)
    ensures forall c :: c in results ==> IsCandidate(rows, last, c)
    ensures forall i, j :: 0 <= i < |rows| && 0 <= j < |rows[i]| && Extend(rows, last, i, j) !in results
              ==> Below(Extend(rows, last, i, j).finalLogProbability, results)
  {
    SelectedAtEnd(rows, last, kept, |rows|);
    DrainedIsKept(results, kept);
    if NoEmptyRow(rows) {
      SumDimsCoversRows(rows);
    }
  }

  /** `results` is what `MostLikeResults` promises for `rows` and `last`:
      min(k, number of extensions) distinct genuine extensions, k being the
      number of rows, in non-decreasing score order, with every extension
      left out scoring no higher than any of them. */
  ghost predicate TopKOf(rows: seq<seq<Step>>, last: seq<BeamSearchResult>, results: seq<BeamSearchResult>)
    requires Aligned(rows, last)
  {
    && |results| == Min(|rows|, SumDims(rows))
    && SortedByScore(results) && Distinct(results)
    && (forall c :: c in results ==> IsCandidate(rows, last, c))
    && forall i, j :: 0 <= i < |rows| && 0 <= j < |rows[i]| && Extend(rows, last, i, j) !in results
         ==> Below(Extend(rows, last, i, j).finalLogProbability, results)
  }

  /** The selection proper. Ties are left to the queue: which of several
      equal-score candidates survive is not specified. */
  method MostLikeResults(rows: seq<seq<Step>>, last: seq<BeamSearchResult>) returns (r: TopKOutcome)
    ensures r.SizeMismatch? <==> !Aligned(rows, last)
    ensures r.SizeMismatch? ==> r.nodes == |rows| && r.lastResults == |last|
    ensures r.Ranked? ==> |r.results| == Min(|rows|, SumDims(rows))
    ensures r.Ranked? ==> |r.results| <= |rows|
    ensures r.Ranked? && NoEmptyRow(rows) ==> |r.results| == |rows|
    ensures r.Ranked? ==> SortedByScore(r.results) && Distinct(r.results)
    ensures r.Ranked? ==> forall c :: c in r.results ==> IsCandidate(rows, last, c)
    ensures r.Ranked? ==>
      forall i, j :: 0 <= i < |rows| && 0 <= j < |rows[i]| && Extend(rows, last, i, j) !in r.results
        ==> Below(Extend(rows, last, i, j).finalLogProbability, r.results)
  {
    if |rows| != |last| && last != [] {
      return SizeMismatch(|rows|, |last|);
    }
    var k := |rows|;
    var queue := new MinQueue();
    var i := 0;
    while i < |rows|
      invariant 0 <= i <= |rows|
      invariant Selected(rows, last, queue.items, k, i, 0)
    {
      OfferRow(queue, rows, last, k, i);
      i := i + 1;
    }
    ghost var kept := queue.items;
    var results := Drain(queue);
    RankedFromKept(rows, last, kept, results);
    return Ranked(results);
  }

  /** Part way through draining: what was popped plus what remains is what
      was kept, popped in order, and nothing popped exceeds what remains. */
  ghost predicate Draining(results: seq<BeamSearchResult>, items: seq<BeamSearchResult>, kept: seq<BeamSearchResult>)
  {
    && multiset(results) + multiset(items) == multiset(kept)
    && SortedByScore(results)
    && forall a :: a in results ==> Below(a.finalLogProbability, items)
  }

  lemma DrainStep(results: seq<BeamSearchResult>, items: seq<BeamSearchResult>, kept: seq<BeamSearchResult>)
    requires |items| > 0 && Draining(results, items, kept)
    ensures Draining(results + [items[MinIndex(items)]], PopMin(items), kept)
  {
    var e := items[MinIndex(items)];
    var rest := PopMin(items);
    var results' := results + [e];
    PopMinMembers(items);
    assert multiset(items) == multiset(rest) + multiset{e};
    assert multiset(results') == multiset(results) + multiset{e};
    assert multiset(results') + multiset(rest) == multiset(kept);
    SortedAppend(results, e, items);
    BelowRest(results, items);
  }

  /** What was popped, the minimum included, is no higher than what is left. */
  lemma BelowRest(results: seq<BeamSearchResult>, items: seq<BeamSearchResult>)
    requires |items| > 0
    requires forall a :: a in results ==> Below(a.finalLogProbability, items)
    ensures forall a :: a in results + [items[MinIndex(items)]] ==> Below(a.finalLogProbability, PopMin(items))
  {
    var e := items[MinIndex(items)];
    PopMinMembers(items);
    forall a | a in results + [e] ensures Below(a.finalLogProbability, PopMin(items)) {
      if a != e {
        assert Below(a.finalLogProbability, items);
      }
    }
  }

  /** Popping the minimum of what remains extends the sorted prefix. */
  lemma SortedAppend(results: seq<BeamSearchResult>, e: BeamSearchResult, items: seq<BeamSearchResult>)
    requires SortedByScore(results) && e in items
    requires forall a :: a in results ==> Below(a.finalLogProbability, items)
    ensures SortedByScore(results + [e])
  {
    forall a | a in results ensures a.finalLogProbability <= e.finalLogProbability {
      assert Below(a.finalLogProbability, items);
    }
  }

  /** Lines 85-91: pop the queue empty, smallest score first. */
  method Drain(queue: MinQueue) returns (results: seq<BeamSearchResult>)
    modifies queue
    ensures queue.items == []
    ensures multiset(results) == old(multiset(queue.items))
    ensures SortedByScore(results)
  {
    results := [];
    while |queue.items| > 0
      invariant Draining(results, queue.items, old(queue.items))
      decreases |queue.items|
    {
      DrainStep(results, queue.items, old(queue.items));
      var e := queue.Top();
      results := results + [e];
      queue.Pop();
    }
  }

  /** Once every row is enumerated the queue is a top-k set of all the
      extensions. */
  lemma SelectedAtEnd(rows: seq<seq<Step>>, last: seq<BeamSearchResult>, kept: seq<BeamSearchResult>, k: nat)
    requires Aligned(rows, last) && k == |rows|
    requires Selected(rows, last, kept, k, |rows|, 0)
    ensures |kept| == Min(k, SumDims(rows)) && Distinct(kept)
    ensures forall c :: c in kept ==> IsCandidate(rows, last, c)
    ensures forall i, j ::
              0 <= i < |rows| && 0 <= j < |rows[i]| && Extend(rows, last, i, j) !in kept
              ==> Below(Extend(rows, last, i, j).finalLogProbability, kept)
  {
    assert rows[..|rows|] == rows;
    forall i, j | 0 <= i < |rows| && 0 <= j < |rows[i]| && Extend(rows, last, i, j) !in kept
      ensures Below(Extend(rows, last, i, j).finalLogProbability, kept)
    {
      assert Before(i, j, |rows|, 0);
    }
  }

  /** A drained sequence holds exactly what the queue held. */
  lemma DrainedIsKept(results: seq<BeamSearchResult>, kept: seq<BeamSearchResult>)
    requires multiset(results) == multiset(kept)
    ensures |results| == |kept|
    ensures forall x :: x in results <==> x in kept
    ensures Distinct(kept) ==> Distinct(results)
  {
    assert |multiset(results)| == |multiset(kept)|;
    forall x ensures x in results <==> x in kept {
      assert x in results <==> x in multiset(results);
    }
  }
}
